=== FILE: README.md ===
# dynamicfee front-end: fee preview, live feed, V4 swap call and swap flow

This project models the deterministic core of the demo page for a Uniswap V4
dynamic-fee hook (`frontend/app/page.tsx`) and the fee-tier table it reads
(`frontend/lib/contracts.ts`), and proves properties of that model.

- `contracts.dfy` (module `Contracts`): the FEE_TIERS table (BASE 500 from 0 ETH,
  MEDIUM 1000 from 0.01, HIGH 3000 from 0.1, MAX 5000 from 1) and the shape of
  the hook's `getFeeTiers` getter (`uint24[4]` fees, `uint256[3]` thresholds).
- `fee_tier.dfy` (module `FeeTierResolver`): `getFeeTier`, the
  `parseFloat(swapAmount) || 0` input it is fed, the hook's `_calculateFee` rule
  that the page shows as code, and `feeToPercent`. Amounts are exact reals (ETH)
  or naturals (wei).
- `live_feed.dfy` (module `LiveFeed`): the `setRecentSwaps` updater that
  deduplicates on (txHash, logIndex), prepends and keeps four older entries, and
  the `onLogs` loop over a delivered batch.
- `v4_swap.dfy` (module `V4Swap`): the structure of the Universal Router call
  built by `encodeV4Swap`: command byte V4_SWAP (0x10), actions
  SWAP_EXACT_IN_SINGLE, SETTLE_ALL, TAKE_ALL (0x06, 0x0c, 0x0f), and one
  parameter record per action. A decoder, the inverse of that layout, shows
  the encoding loses nothing.
- `swap_flow.dfy` (module `SwapFlow`): class `SwapFlowState` with the page's
  `swapStep` and `errorMessage`, the pending `setTimeout` callbacks and the
  sequence of transactions handed to the wallet, and one method per event:
  the swap button, each receipt, each `onError`, each timer.
- `wrappers.dfy` (module `Wrappers`): `Option`, for reads that have not
  resolved (`undefined`) and numbers that did not parse.

Inputs the page gets from outside are event parameters: the connected account
(`connected`), the amount in wei (`parseEther(swapAmount)`), the direction, the
ERC-20 and Permit2 allowance reads (`None` while unresolved, then counted as 0),
the clock (`Date.now()` in milliseconds), receipts, failures with their message,
and the expiry of each scheduled timer.

Points of the code's behaviour worth noting:
- The tier table is the hard-coded FEE_TIERS, with fees rising with size. It is
  not injected configuration. `GreatestAtOrBelow` is the generic scan over any
  ascending table, and `GetFeeTierIsScan` shows the hard-coded chain is that scan.
- After the ERC-20 approval's receipt, the code schedules the Permit2 approval
  without looking at any allowance again (`refetchErc20Allowance()` result is not
  consulted). After the Permit2 receipt it schedules the swap the same way.
- The reset timers set the step to `idle` whatever the step is when they fire.
  `RetryBeforeResetScenario` shows the consequence: a retry pressed within 5 s of
  an error is returned to `idle` by the earlier timer. The later receipt of its
  ERC-20 approval then no longer advances the flow.
- The fee a swap pays is fixed by the hook on chain. `PreviewMatchesContract`
  shows the preview's tier agrees with the `_calculateFee` rule the page
  displays, for every size in wei, the boundaries included.

## Model

| member | source | states |
|---|---|---|
| `Contracts.TableAscendingFromZero` | frontend/lib/contracts.ts:97-102 | BASE's threshold is 0 and thresholds strictly increase BASE < MEDIUM < HIGH < MAX |
| `Contracts.TableFeesIncreasing` | frontend/lib/contracts.ts:98-101 | fees strictly increase 500 < 1000 < 3000 < 5000 along the table |
| `Contracts.FeeIdentifiesTier` | frontend/app/page.tsx:482-484 | two tiers have the same fee iff they are the same tier, so the active-tier test marks exactly one tier |
| `Contracts.FeeTiersView` | frontend/lib/contracts.ts:10-18 | 4 fees each below 2^24 (uint24) and 3 non-zero thresholds below 2^256, each the table's threshold in wei |
| `FeeTierResolver.EffectiveAmount` | frontend/app/page.tsx:217 | unparseable input gives 0; any parsed number, negative included, passes unchanged |
| `FeeTierResolver.GetFeeTier` | frontend/app/page.tsx:191-196 | the result is a table tier whose threshold the amount reaches (or BASE), and no tier the amount reaches has a higher threshold |
| `FeeTierResolver.CurrentFeeTier` | frontend/app/page.tsx:216-219 | the previewed tier is in the table; unparseable text gets BASE; a parsed amount gets exactly the tier `getFeeTier` gives it |
| `FeeTierResolver.FeeTierBands` | frontend/app/page.tsx:191-196 | MAX iff amount >= 1, HIGH iff 0.1 <= amount < 1, MEDIUM iff 0.01 <= amount < 0.1, BASE iff amount < 0.01 |
| `FeeTierResolver.GreatestAtOrBelow` | frontend/app/page.tsx:191-196 | generic downward scan: returns a tier of the table the amount reaches (else the first), and for an ascending table the one with the greatest such threshold |
| `FeeTierResolver.GetFeeTierIsScan` | frontend/app/page.tsx:191-196 | the hard-coded if-chain equals the downward scan over FEE_TIERS for every amount |
| `FeeTierResolver.GetFeeTierMonotone` | frontend/app/page.tsx:191-196 | a <= b implies the fee and threshold for a are at most those for b |
| `FeeTierResolver.ContractFee` | frontend/app/page.tsx:731-735 | the displayed on-chain rule yields one of the four tier fees, within uint24 |
| `FeeTierResolver.PreviewMatchesContract` | frontend/app/page.tsx:731-735 | for every size in wei the previewed tier's fee equals the on-chain rule's fee, boundaries included |
| `FeeTierResolver.FeeToPercent` | frontend/app/page.tsx:389 | the label is decimal digits with no leading zero (a lone 0 before the point), a '.', exactly two decimal digits and '%' |
| `FeeTierResolver.NatToDecimal` | frontend/app/page.tsx:389 | the whole-percent part is a non-empty string of digits, with no leading zero unless it is "0", that reads back as the number printed |
| `FeeTierResolver.FeeToPercentReadsBack` | frontend/app/page.tsx:389 | read back, the label is fee / 10000 percent to the nearest hundredth (half-way fees up): 100h <= fee + 50 < 100h + 100, and within 50 of fee away from half-way |
| `FeeTierResolver.PercentLabelsMatchFees` | frontend/lib/contracts.ts:98-101 | each tier's percent label is its fee / 10000 printed as a percent (0.05%, 0.10%, 0.30%, 0.50%) |
| `LiveFeed.IsDuplicate` | frontend/app/page.tsx:252-254 | true iff some entry has the event's (txHash, logIndex) |
| `LiveFeed.Insert` | frontend/app/page.tsx:251-267 | a known key returns the feed unchanged; a new one gives length min(n,4)+1 <= 5, the event first, then a prefix of the old feed in its order |
| `LiveFeed.InsertPreservesValid` | frontend/app/page.tsx:251-267 | a bounded feed with distinct keys stays bounded with distinct keys, and afterwards holds the event's key |
| `LiveFeed.InsertIdempotent` | frontend/app/page.tsx:252-255 | delivering the same event twice has the effect of delivering it once |
| `LiveFeed.Ingest` | frontend/app/page.tsx:246-268 | one log keeps a valid feed valid; an accepted log's key is in the feed afterwards; a rejected or already-present log leaves the feed unchanged; a new accepted log gives its entry followed by the first min(n, 4) old entries in order |
| `LiveFeed.ReplayPreservesValid` | frontend/app/page.tsx:245-270 | any batch of logs keeps a feed bounded by 5 with distinct keys |
| `LiveFeed.NewestAcceptedLogIsPresent` | frontend/app/page.tsx:245-270 | from any feed, after a batch the key of its newest accepted log is in the feed |
| `LiveFeed.OnLogs` | frontend/app/page.tsx:245-270 | the loop computes the batch replay, keeps the feed valid, and every entry is old or built from a delivered log |
| `V4Swap.ActionOf` | frontend/app/page.tsx:38-42 | each parameter record belongs to one of the three swap actions |
| `V4Swap.EncodeV4Swap` | frontend/app/page.tsx:113-188 | commands is [0x10], one input with actions [0x06, 0x0c, 0x0f] and matching records; settle currency is currency0 iff zeroForOne, settle and take are the pool's two currencies; settle carries amountIn, take the minimum output |
| `V4Swap.DecodeV4Swap` | frontend/app/page.tsx:113-188 | the inverse of the encoder's layout: a call it recognises has exactly the V4_SWAP command and one input |
| `V4Swap.DecodeEncode` | frontend/app/page.tsx:113-188 | decoding an encoded swap gives back pool key, direction, amount in and minimum out |
| `V4Swap.EncodeDecode` | frontend/app/page.tsx:113-188 | every call of the encoder's layout is the encoding of the request it carries |
| `V4Swap.EncodeInjective` | frontend/app/page.tsx:113-188 | different swap requests never encode to the same call |
| `SwapFlow.InputToken` | frontend/app/page.tsx:222 | the approved token is the swap's input currency: WETH for WETH to MOLT, MOLT otherwise |
| `SwapFlow.Erc20ApprovalWrite` | frontend/app/page.tsx:357-362 | ERC-20 approve of the input token to PERMIT2 for 2^256 - 1 |
| `SwapFlow.Permit2ApprovalWrite` | frontend/app/page.tsx:307-314 | Permit2 approve of the input token to the router for amountIn, expiring 30 days after now (in whole seconds) |
| `SwapFlow.SwapWrite` | frontend/app/page.tsx:328-338 | the router call decodes to the pool, the direction, amountIn and minimum output 0, with deadline now + 1800 s |
| `SwapFlow.ErrorText` | frontend/app/page.tsx:318 | the message shown is a prefix of the failure text of length min(length, 150), the whole text when it is short |
| `SwapFlow.ChooseBranch` | frontend/app/page.tsx:353-380 | ERC-20 approval iff its allowance (unresolved = 0) < amountIn; Permit2 approval iff ERC-20 suffices and Permit2 amount < amountIn; swap iff both suffice |
| `SwapFlow.RetrySkipsSatisfiedApprovals` | frontend/app/page.tsx:353-380 | with any ERC-20 allowance covering the amount (the landed maximum approval included) a retry never repeats that approval, and swaps at once when Permit2 also suffices |
| `SwapFlow.SwapFlowState.constructor` | frontend/app/page.tsx:209-210 | the flow starts idle with an empty message, no timers and no writes |
| `SwapFlow.LockTracksStep` | frontend/app/page.tsx:383-386 | the form is locked (loading, and the swap button disabled, whatever the wallet's pending flags and the amount) exactly while the step is approving or swapping, and usable with any non-empty amount otherwise |
| `SwapFlow.SwapFlowState.ApprovePermit2ForRouter` | frontend/app/page.tsx:305-322 | with an account, exactly the Permit2 approval is issued and nothing else changes; without one, nothing happens |
| `SwapFlow.SwapFlowState.ExecuteSwap` | frontend/app/page.tsx:324-346 | with an account, the step becomes swapping, which locks the form, and exactly the swap call is issued; without one, nothing happens |
| `SwapFlow.SwapFlowState.HandleSwap` | frontend/app/page.tsx:348-381 | without an account nothing changes; with one, clears the message and locks the form; ERC-20 branch: approving plus the ERC-20 approval and no swap; Permit2 branch: approving plus the Permit2 approval; else swapping plus the swap; the swap count grows by one only in the last case |
| `SwapFlow.SwapFlowState.Erc20ApproveConfirmed` | frontend/app/page.tsx:284-289 | acts only while approving, scheduling the Permit2 approval without re-checking allowances |
| `SwapFlow.SwapFlowState.Permit2ApproveConfirmed` | frontend/app/page.tsx:291-296 | acts only while approving, scheduling the swap |
| `SwapFlow.SwapFlowState.SwapConfirmed` | frontend/app/page.tsx:298-303 | acts only while swapping: success, which unlocks the form, and a 3 s reset scheduled |
| `SwapFlow.SwapFlowState.WriteFailed` | frontend/app/page.tsx:363-367 | any step becomes error with the truncated message, which unlocks the form, a 5 s reset scheduled, no write issued |
| `SwapFlow.SwapFlowState.TimerElapsed` | frontend/app/page.tsx:287-301 | the timer is removed; a reset sets idle whatever the step, unlocking the form; a paced call runs approvePermit2ForRouter or executeSwap with the account, amount and direction its closure captured and the clock when it fires, the swap locking the form |

## Left out

- Rendering: all JSX, tier bar widths, threshold captions, `frontend/app/layout.tsx` and `frontend/tailwind.config.ts`. The `isLoading` flag and the swap button's `disabled` condition are kept as `IsLoading` and `SwapButtonEnabled`, whose meaning `LockTracksStep` states.
- `frontend/components/ConnectButton.tsx` and `frontend/lib/wagmi.ts`: wallet UI and transport configuration. The account is the `connected` parameter.
- The ABI byte encoding (`encodeAbiParameters`, `toHex`) and the `keccak256` POOL_ID. These are viem calls; the model keeps the structure of the call only.
- Range checks that viem applies while encoding (uint128 amounts, uint160 and uint48 Permit2 fields). Amounts are unbounded naturals.
- `parseFloat`, `parseEther` and `toFixed` on floating point. Preview amounts are exact reals, swap amounts exact wei. A malformed or negative amount, for which `parseEther` throws or returns a negative value, is not modelled.
- FeeToPercent: rounds exact half-way values up. `toFixed` on the binary double may round such a fee (fee % 100 == 50) either way, so `FeeToPercentReadsBack` claims the nearest hundredth strictly only away from half-way. The table's own fees are exact, and `PercentLabelsMatchFees` covers them.
- ErrorText: JavaScript's `slice(0, 150)` counts UTF-16 code units, the model counts characters (Unicode scalar values); for text outside the Basic Multilingual Plane the page may show fewer characters, or cut a surrogate pair.
- `ADDRESSES` and `isDeployed`: with the zero hook address, the page disables the allowance reads and the event watch. The model takes the reads and the logs as inputs, so both cases are covered by passing `None` or no logs.
- The `refetch` calls after receipts. The page never consults their result inside the flow; later reads arrive as new `HandleSwap` parameters.
- React scheduling: re-renders and effect dependency timing. Receipts are single events. The caller of `TimerElapsed` passes the account, amount and direction the scheduling render captured; which render that is, is not modelled.
- The timer delays (1 s pacing, 3 s and 5 s resets) are recorded but not measured; any pending timer may fire next.
- A global "at most one swap per click" property across arbitrary interleavings of events is not proved. Per event, the contracts state exactly which write each one issues.

=== FILE: contracts.dfy ===
/** The fee-tier table of frontend/lib/contracts.ts and the shape of the hook's
    `getFeeTiers` getter declared in its ABI. */
module Contracts {

  /** One row of FEE_TIERS: the fee in hundredths of a basis point, its percent
      label, its display name (the source's `label` field; `label` is a
      reserved word in Dafny) and the swap size (in ETH) from which it applies. */
  datatype FeeTier = FeeTier(fee: nat, percent: string, name: string, threshold: real)

  const Base := FeeTier(500, "0.05%", "Base", 0.0)
  const Medium := FeeTier(1000, "0.10%", "Medium", 0.01)
  const High := FeeTier(3000, "0.30%", "High", 0.1)
  const Max := FeeTier(5000, "0.50%", "Max", 1.0)

  /** FEE_TIERS in declaration order, which is also ascending threshold order. */
  const Table: seq<FeeTier> := [Base, Medium, High, Max]

  /** Wei per ETH: the on-chain thresholds are written in `ether` units. */
  const WeiPerEth: nat := 1_000_000_000_000_000_000

  /** Exclusive upper bounds of the ABI types `uint24` and `uint256`. */
  const Uint24Limit: nat := 0x100_0000
  const Uint256Limit: nat := 0x1_0000_0000_0000_0000_0000_0000_0000_0000_0000_0000_0000_0000_0000_0000_0000_0000

  /** Thresholds strictly increase along the table. */
  ghost predicate ThresholdsAscending(tiers: seq<FeeTier>)
  {
    forall i, j :: 0 <= i < j < |tiers| ==> tiers[i].threshold < tiers[j].threshold
  }

  /** The table's thresholds strictly increase and the first one is 0. */
  ghost predicate AscendingFromZero(tiers: seq<FeeTier>)
  {
    |tiers| > 0 && tiers[0].threshold == 0.0 && ThresholdsAscending(tiers)
  }

  /** The table's fees strictly increase: a larger size never earns a lower fee. */
  ghost predicate FeesIncreasing(tiers: seq<FeeTier>)
  {
    forall i, j :: 0 <= i < j < |tiers| ==> tiers[i].fee < tiers[j].fee
  }

  /** FEE_TIERS is in ascending threshold order starting at 0. */
  lemma TableAscendingFromZero()
    ensures AscendingFromZero(Table)
    ensures Table[0] == Base
    ensures Base.threshold < Medium.threshold < High.threshold < Max.threshold
  {
  }

  /** Larger swaps never get a lower fee. */
  lemma TableFeesIncreasing()
    ensures FeesIncreasing(Table)
    ensures Base.fee < Medium.fee < High.fee < Max.fee
  {
  }

  /** Fees are pairwise distinct, so the page's "active tier" test, equality of
      fees, singles out exactly the tier itself. */
  lemma FeeIdentifiesTier(t: FeeTier, u: FeeTier)
    requires t in Table && u in Table
    ensures t.fee == u.fee <==> t == u
  {
  }

  /** The fees and non-zero thresholds in the form `getFeeTiers` returns them:
      `uint24[4]` fees and `uint256[3]` thresholds in wei. */
  function FeeTiersView(): (r: (seq<nat>, seq<nat>))
    ensures |r.0| == |Table| == 4 && |r.1| == |Table| - 1 == 3
    ensures forall i :: 0 <= i < |r.0| ==> r.0[i] == Table[i].fee < Uint24Limit
    ensures forall i :: 0 <= i < |r.1| ==>
              r.1[i] < Uint256Limit && r.1[i] as real == Table[i + 1].threshold * WeiPerEth as real
    ensures forall i :: 0 <= i < |r.1| ==> r.1[i] > 0
  {
    ([Base.fee, Medium.fee, High.fee, Max.fee],
     [WeiPerEth / 100, WeiPerEth / 10, WeiPerEth])
  }
}

=== FILE: fee_tier.dfy ===
/** The fee preview of frontend/app/page.tsx: `getFeeTier` over the FEE_TIERS
    table, the `parseFloat(swapAmount) || 0` input it is fed, the hook's
    `_calculateFee` rule that the page displays, and `feeToPercent`. */
module FeeTierResolver {
  import opened Wrappers
  import opened Contracts

  /** `parseFloat(swapAmount) || 0`: `None` stands for NaN (text that does not
      parse); NaN and 0 are falsy, so both give 0, and every other number,
      negative ones included, passes through. */
  function EffectiveAmount(parsed: Option<real>): (amount: real)
    ensures parsed.None? ==> amount == 0.0
    ensures parsed.Some? ==> amount == parsed.value
  {
    if parsed.Some? && parsed.value != 0.0 then parsed.value else 0.0
  }

  /** `getFeeTier`: test the tiers from the highest threshold down and return
      the first one the amount reaches; BASE otherwise. */
  function GetFeeTier(amount: real): (t: FeeTier)
    ensures t in Table
    ensures t == Base || t.threshold <= amount
    ensures forall u :: u in Table && u.threshold <= amount ==> u.threshold <= t.threshold
  {
    if amount >= Max.threshold then Max
    else if amount >= High.threshold then High
    else if amount >= Medium.threshold then Medium
    else Base
  }

  /** The tier previewed for the text in the amount field (the `currentFeeTier` memo). */
  function CurrentFeeTier(parsed: Option<real>): (t: FeeTier)
    ensures t in Table
    ensures parsed.None? ==> t == Base
    ensures parsed.Some? ==> t == GetFeeTier(parsed.value)
  {
    GetFeeTier(EffectiveAmount(parsed))
  }

  /** The four size bands, each stated in both directions. */
  lemma FeeTierBands(amount: real)
    ensures GetFeeTier(amount) == Max <==> amount >= 1.0
    ensures GetFeeTier(amount) == High <==> 0.1 <= amount < 1.0
    ensures GetFeeTier(amount) == Medium <==> 0.01 <= amount < 0.1
    ensures GetFeeTier(amount) == Base <==> amount < 0.01
  {
  }

  /** Reference resolver for any table in ascending threshold order: scan from
      the last (highest) tier down and return the first whose threshold the
      amount reaches, falling back to the first tier. */
  function GreatestAtOrBelow(tiers: seq<FeeTier>, amount: real): (r: FeeTier)
    requires |tiers| > 0
    ensures r in tiers
    ensures r == tiers[0] || r.threshold <= amount
    ensures ThresholdsAscending(tiers) ==>
              forall u :: u in tiers && u.threshold <= amount ==> u.threshold <= r.threshold
    decreases |tiers|
  {
    var last := tiers[|tiers| - 1];
    if |tiers| == 1 || last.threshold <= amount then last
    else GreatestAtOrBelow(tiers[..|tiers| - 1], amount)
  }

  /** The hard-coded if-chain agrees with the generic scan over FEE_TIERS. */
  lemma GetFeeTierIsScan(amount: real)
    ensures GetFeeTier(amount) == GreatestAtOrBelow(Table, amount)
  {
  }

  /** A larger amount never gets a lower fee. */
  lemma GetFeeTierMonotone(a: real, b: real)
    requires a <= b
    ensures GetFeeTier(a).fee <= GetFeeTier(b).fee
    ensures GetFeeTier(a).threshold <= GetFeeTier(b).threshold
  {
  }

  /** `_calculateFee(size)` of the hook, as the page displays it: size in wei. */
  function ContractFee(size: nat): (fee: nat)
    ensures fee in {Base.fee, Medium.fee, High.fee, Max.fee}
    ensures fee < Uint24Limit
  {
    if size < WeiPerEth / 100 then 500
    else if size < WeiPerEth / 10 then 1000
    else if size < WeiPerEth then 3000
    else 5000
  }

  /** The size in ETH of `size` wei. */
  function WeiToEth(size: nat): (eth: real)
    ensures eth * WeiPerEth as real == size as real
  {
    size as real / WeiPerEth as real
  }

  /** The preview agrees with the on-chain rule for every size, boundaries included. */
  lemma PreviewMatchesContract(size: nat)
    ensures GetFeeTier(WeiToEth(size)).fee == ContractFee(size)
  {
  }

  /** The digit a character stands for. */
  function DigitValue(c: char): (d: nat)
    requires '0' <= c <= '9'
    ensures d < 10
  {
    (c as int - '0' as int) as nat
  }

  /** The number a string of decimal digits denotes. */
  function DecimalValue(s: string): nat
    requires forall i :: 0 <= i < |s| ==> '0' <= s[i] <= '9'
    decreases |s|
  {
    if s == [] then 0 else DecimalValue(s[..|s| - 1]) * 10 + DigitValue(s[|s| - 1])
  }

  function DigitChar(d: nat): (c: char)
    requires d < 10
    ensures '0' <= c <= '9' && DigitValue(c) == d
  {
    "0123456789"[d]
  }

  /** Decimal digits of a natural number, most significant first and with no
      leading zero, as template-literal interpolation prints it. */
  function NatToDecimal(n: nat): (s: string)
    ensures |s| > 0
    ensures forall i :: 0 <= i < |s| ==> '0' <= s[i] <= '9'
    ensures DecimalValue(s) == n
    ensures s[0] == '0' ==> s == "0"
    decreases n
  {
    if n < 10 then [DigitChar(n)]
    else
      var prefix := NatToDecimal(n / 10);
      assert (prefix + [DigitChar(n % 10)])[..|prefix|] == prefix;
      prefix + [DigitChar(n % 10)]
  }

  /** `feeToPercent`: fee / 10000 printed as a percent with two decimals
      (half-way cases rounded up). */
  function FeeToPercent(fee: nat): (s: string)
    ensures |s| >= 5 && s[|s| - 1] == '%' && s[|s| - 4] == '.'
    ensures forall i :: 0 <= i < |s| - 4 ==> '0' <= s[i] <= '9'
    ensures '0' <= s[|s| - 3] <= '9' && '0' <= s[|s| - 2] <= '9'
    ensures s[0] == '0' ==> s[1] == '.'
  {
    var hundredths := (fee + 50) / 100;
    NatToDecimal(hundredths / 100) + "." +
    [DigitChar(hundredths / 10 % 10), DigitChar(hundredths % 10)] + "%"
  }

  /** The hundredths of a percent that a label "D.DD%" reads as. */
  function PercentHundredths(s: string): nat
    requires |s| >= 5
    requires forall i :: 0 <= i < |s| - 4 ==> '0' <= s[i] <= '9'
    requires '0' <= s[|s| - 3] <= '9' && '0' <= s[|s| - 2] <= '9'
  {
    DecimalValue(s[..|s| - 4]) * 100 + DigitValue(s[|s| - 3]) * 10 + DigitValue(s[|s| - 2])
  }

  /** A number is its hundreds, tens digit and units digit. */
  lemma HundredthsSplit(h: nat)
    ensures (h / 100) * 100 + (h / 10 % 10) * 10 + h % 10 == h
  {
    assert h / 10 == (h / 100) * 10 + h / 10 % 10;
    assert h == (h / 10) * 10 + h % 10;
  }

  /** The label without its last four characters is the whole-percent part,
      and reads as the hundredths `FeeToPercent` rounds to. */
  lemma PercentHundredthsOfLabel(fee: nat)
    ensures PercentHundredths(FeeToPercent(fee)) == (fee + 50) / 100
  {
    var h := (fee + 50) / 100;
    var whole := NatToDecimal(h / 100);
    var s := FeeToPercent(fee);
    assert s == whole + ['.', DigitChar(h / 10 % 10), DigitChar(h % 10), '%'];
    assert s[..|s| - 4] == whole;
    assert DigitValue(s[|s| - 3]) == h / 10 % 10 && DigitValue(s[|s| - 2]) == h % 10;
    HundredthsSplit(h);
  }

  /** Read back, the label is fee / 10000 percent rounded to the nearest
      hundredth of a percent, a half-way fee going up; away from half-way
      cases it is strictly the nearest. */
  lemma FeeToPercentReadsBack(fee: nat)
    ensures var h := PercentHundredths(FeeToPercent(fee));
            100 * h <= fee + 50 < 100 * h + 100
    ensures fee % 100 != 50 ==>
              var h := PercentHundredths(FeeToPercent(fee));
              -50 < fee - 100 * h < 50
  {
    PercentHundredthsOfLabel(fee);
  }

  /** A fee that rounds to `tens` and `units` hundredths of a percent, below
      1%, prints as "0.<tens><units>%". */
  lemma SubPercentLabel(fee: nat, tens: nat, units: nat)
    requires tens < 10 && units < 10
    requires 100 * (10 * tens + units) <= fee + 50 < 100 * (10 * tens + units) + 100
    ensures FeeToPercent(fee) == ['0', '.', DigitChar(tens), DigitChar(units), '%']
  {
    var h := (fee + 50) / 100;
    assert h == 10 * tens + units;
    assert h / 10 == tens && h % 10 == units;
    assert NatToDecimal(h / 100) == "0";
  }

  /** Each tier's percent label is its fee printed by `feeToPercent`. */
  lemma PercentLabelsMatchFees()
    ensures forall t :: t in Table ==> FeeToPercent(t.fee) == t.percent
  {
    assert DigitChar(0) == '0' && DigitChar(1) == '1' && DigitChar(3) == '3' && DigitChar(5) == '5';
    SubPercentLabel(Base.fee, 0, 5);
    SubPercentLabel(Medium.fee, 1, 0);
    SubPercentLabel(High.fee, 3, 0);
    SubPercentLabel(Max.fee, 5, 0);
  }
}

=== FILE: live_feed.dfy ===
/** The "Live Fee Events" feed of frontend/app/page.tsx: the `setRecentSwaps`
    updater that ingests one DynamicFeeApplied log, and the `onLogs` callback
    that feeds it a batch of logs. */
module LiveFeed {
  import opened Wrappers

  /** One feed entry; (txHash, logIndex) identifies the log it came from. */
  datatype FeeEvent = FeeEvent(swapSize: nat, feeApplied: nat, timestamp: nat, txHash: string, logIndex: nat)

  /** The decoded arguments of a DynamicFeeApplied log. */
  datatype EventArgs = EventArgs(swapSize: nat, feeApplied: nat, timestamp: nat)

  /** A log as the subscription delivers it; any part may be missing. */
  datatype Log = Log(args: Option<EventArgs>, transactionHash: Option<string>, logIndex: Option<nat>)

  /** How many older entries an update keeps behind the new one (`prev.slice(0, 4)`). */
  const OlderKept: nat := 4
  /** Largest feed length. */
  const Capacity: nat := OlderKept + 1

  predicate SameKey(a: FeeEvent, b: FeeEvent)
  {
    a.txHash == b.txHash && a.logIndex == b.logIndex
  }

  /** `prev.some(swap => swap.txHash === txHash && swap.logIndex === logIndex)`. */
  function IsDuplicate(prev: seq<FeeEvent>, e: FeeEvent): (b: bool)
    ensures b <==> exists i :: 0 <= i < |prev| && SameKey(prev[i], e)
    decreases |prev|
  {
    if prev == [] then false
    else SameKey(prev[0], e) || IsDuplicate(prev[1..], e)
  }

  /** No two entries share a (txHash, logIndex) key. */
  ghost predicate KeysDistinct(feed: seq<FeeEvent>)
  {
    forall i, j :: 0 <= i < j < |feed| ==> !SameKey(feed[i], feed[j])
  }

  /** What the feed always satisfies: bounded and duplicate-free. */
  ghost predicate ValidFeed(feed: seq<FeeEvent>)
  {
    |feed| <= Capacity && KeysDistinct(feed)
  }

  function Min(a: nat, b: nat): nat { if a <= b then a else b }

  /** The `setRecentSwaps` updater: a known key leaves the feed as it was;
      a new event goes in front of at most four of the previous entries. */
  function Insert(prev: seq<FeeEvent>, e: FeeEvent): (next: seq<FeeEvent>)
    ensures IsDuplicate(prev, e) ==> next == prev
    ensures !IsDuplicate(prev, e) ==>
              |next| == Min(|prev|, OlderKept) + 1 <= Capacity &&
              next[0] == e &&
              next[1..] <= prev
  {
    if IsDuplicate(prev, e) then prev else [e] + prev[..Min(|prev|, OlderKept)]
  }

  /** An update keeps the feed bounded and duplicate-free, and afterwards the
      event's key is in the feed whether or not it was new. */
  lemma InsertPreservesValid(prev: seq<FeeEvent>, e: FeeEvent)
    ensures ValidFeed(prev) ==> ValidFeed(Insert(prev, e))
    ensures IsDuplicate(Insert(prev, e), e)
  {
  }

  /** Delivering the same log twice changes nothing the second time. */
  lemma InsertIdempotent(prev: seq<FeeEvent>, e: FeeEvent)
    ensures Insert(Insert(prev, e), e) == Insert(prev, e)
  {
  }

  /** Whether `log.args && log.transactionHash` holds: both present, and the
      hash is not the empty (falsy) string. */
  predicate Accepted(log: Log)
  {
    log.args.Some? && log.transactionHash.Some? && log.transactionHash.value != ""
  }

  /** The entry built from an accepted log; a missing log index counts as 0
      (`log.logIndex ?? 0`). */
  function ToEvent(log: Log): FeeEvent
    requires Accepted(log)
  {
    var args := log.args.value;
    FeeEvent(args.swapSize, args.feeApplied, args.timestamp, log.transactionHash.value, log.logIndex.GetOr(0))
  }

  /** The effect of one log on the feed. */
  function Ingest(prev: seq<FeeEvent>, log: Log): (next: seq<FeeEvent>)
    ensures ValidFeed(prev) ==> ValidFeed(next)
    ensures Accepted(log) ==> IsDuplicate(next, ToEvent(log))
    ensures !Accepted(log) || IsDuplicate(prev, ToEvent(log)) ==> next == prev
    ensures Accepted(log) && !IsDuplicate(prev, ToEvent(log)) ==>
              |next| == Min(|prev|, OlderKept) + 1 && next[0] == ToEvent(log) && next[1..] <= prev
  {
    if Accepted(log) then
      InsertPreservesValid(prev, ToEvent(log));
      Insert(prev, ToEvent(log))
    else prev
  }

  /** The feed after a batch of logs, applied in delivery order. */
  function Replay(prev: seq<FeeEvent>, logs: seq<Log>): seq<FeeEvent>
    decreases |logs|
  {
    if logs == [] then prev else Ingest(Replay(prev, logs[..|logs| - 1]), logs[|logs| - 1])
  }

  /** Any batch keeps the feed bounded and duplicate-free. */
  lemma {:induction false} ReplayPreservesValid(prev: seq<FeeEvent>, logs: seq<Log>)
    requires ValidFeed(prev)
    ensures ValidFeed(Replay(prev, logs))
    decreases |logs|
  {
    if logs != [] {
      ReplayPreservesValid(prev, logs[..|logs| - 1]);
    }
  }

  /** After a batch, the key of its newest accepted log is in the feed: the
      logs after it are skipped and leave the feed as it was. */
  lemma {:induction false} NewestAcceptedLogIsPresent(prev: seq<FeeEvent>, logs: seq<Log>, k: nat)
    requires k < |logs| && Accepted(logs[k])
    requires forall j :: k < j < |logs| ==> !Accepted(logs[j])
    ensures IsDuplicate(Replay(prev, logs), ToEvent(logs[k]))
    decreases |logs|
  {
    var n := |logs| - 1;
    if k < n {
      assert logs[..n][k] == logs[k];
      NewestAcceptedLogIsPresent(prev, logs[..n], k);
      assert !Accepted(logs[n]);
    }
  }

  /** The entry `e` was built from one of the first `n` logs of the batch. */
  ghost predicate FromLogs(e: FeeEvent, logs: seq<Log>, n: nat)
    requires n <= |logs|
  {
    exists k :: 0 <= k < n && Accepted(logs[k]) && e == ToEvent(logs[k])
  }

  /** `onLogs`: run the updater for each delivered log in turn. */
  method OnLogs(prev: seq<FeeEvent>, logs: seq<Log>) returns (feed: seq<FeeEvent>)
    ensures feed == Replay(prev, logs)
    ensures ValidFeed(prev) ==> ValidFeed(feed)
    ensures forall e :: e in feed ==> e in prev || FromLogs(e, logs, |logs|)
  {
    feed := prev;
    var i := 0;
    while i < |logs|
      invariant 0 <= i <= |logs|
      invariant feed == Replay(prev, logs[..i])
      invariant ValidFeed(prev) ==> ValidFeed(feed)
      invariant forall e :: e in feed ==> e in prev || FromLogs(e, logs, i)
    {
      assert logs[..i + 1][..i] == logs[..i];
      feed := Ingest(feed, logs[i]);
      i := i + 1;
    }
    assert logs[..i] == logs;
  }
}

=== FILE: swap_flow.dfy ===
/** The swap-authorization flow of frontend/app/page.tsx: `handleSwap`,
    `approvePermit2ForRouter`, `executeSwap`, the three receipt effects, the
    `onError` callbacks and the `setTimeout` callbacks they schedule, acting on
    the page's `swapStep` and `errorMessage` state. Wallet writes are recorded
    in the order they are issued; allowance reads, receipts, failures, the
    clock and the connected account come in as event parameters. */
module SwapFlow {
  import opened Wrappers
  import opened V4Swap
  import opened Contracts

  datatype Step = Idle | Approving | Swapping | Success | Error

  /** The direction buttons: WETH to MOLT swaps currency0 for currency1. */
  datatype Direction = WethToMolt | MoltToWeth

  /** Permit2 `allowance(owner, token, spender)`: (amount, expiration, nonce). */
  datatype Permit2Allowance = Permit2Allowance(amount: nat, expiration: nat, nonce: nat)

  /** A transaction the page hands to the wallet. */
  datatype Write =
    | Erc20Approve(token: Address, spender: Address, amount: nat)
    | Permit2Approve(token: Address, spender: Address, amount: nat, expiration: nat)
    | Execute(call: RouterCall, deadline: nat)

  /** A `setTimeout` callback that has been scheduled and not yet run. */
  datatype Timer = ResetToIdle(delayMs: nat) | ThenApprovePermit2 | ThenExecuteSwap

  /** The wagmi mutation and receipt flags that also lock the form. */
  datatype TxActivity = TxActivity(
    erc20ApprovePending: bool, erc20ApproveConfirming: bool,
    permit2ApprovePending: bool, permit2ApproveConfirming: bool,
    swapPending: bool, swapConfirming: bool)
  {
    predicate Any()
    {
      erc20ApprovePending || erc20ApproveConfirming || permit2ApprovePending ||
      permit2ApproveConfirming || swapPending || swapConfirming
    }
  }

  /** No wallet transaction pending or confirming. */
  const Quiet := TxActivity(false, false, false, false, false, false)

  const UNIVERSAL_ROUTER: Address := "0x6ff5693b99212da76ad316178a184ab56d299b43"
  const PERMIT2: Address := "0x000000000022D473030F116dDEE9F6B43aC78BA3"
  const MaxUint256: nat := 0xffff_ffff_ffff_ffff_ffff_ffff_ffff_ffff_ffff_ffff_ffff_ffff_ffff_ffff_ffff_ffff
  /** Permit2 approvals last 30 days; swaps must land within 30 minutes. */
  const PermitLifetime: nat := 30 * 24 * 60 * 60
  const SwapDeadlineWindow: nat := 1800
  const ErrorMessageLimit: nat := 150
  const PacingDelayMs: nat := 1000
  const SuccessResetMs: nat := 3000
  const ErrorResetMs: nat := 5000

  function ZeroForOne(direction: Direction): bool
  {
    direction == WethToMolt
  }

  /** The token the user pays with; the one both approvals are for. */
  function InputToken(direction: Direction): (token: Address)
    ensures token == InputCurrency(POOL_KEY, ZeroForOne(direction))
    ensures token == (if direction == WethToMolt then WETH else MOLT)
  {
    if direction == WethToMolt then POOL_KEY.currency0 else POOL_KEY.currency1
  }

  /** Unix seconds from milliseconds: `Math.floor(Date.now() / 1000)`. */
  function Seconds(nowMs: nat): nat
  {
    nowMs / 1000
  }

  /** ERC-20 `approve(PERMIT2, maxUint256)` on the input token. */
  function Erc20ApprovalWrite(direction: Direction): (w: Write)
    ensures w.Erc20Approve? && w.token == InputToken(direction) && w.spender == PERMIT2
    ensures w.amount == MaxUint256 == Uint256Limit - 1
  {
    Erc20Approve(InputToken(direction), PERMIT2, MaxUint256)
  }

  /** Permit2 `approve(token, ROUTER, amountIn, now + 30 days)`. */
  function Permit2ApprovalWrite(direction: Direction, amountIn: nat, nowMs: nat): (w: Write)
    ensures w.Permit2Approve? && w.token == InputToken(direction) && w.spender == UNIVERSAL_ROUTER
    ensures w.amount == amountIn
    ensures w.expiration * 1000 <= nowMs + PermitLifetime * 1000 < (w.expiration + 1) * 1000
  {
    Permit2Approve(InputToken(direction), UNIVERSAL_ROUTER, amountIn, Seconds(nowMs) + PermitLifetime)
  }

  /** The router `execute(commands, inputs, now + 1800)` that `executeSwap`
      sends: the full input amount, no minimum output. */
  function SwapWrite(direction: Direction, amountIn: nat, nowMs: nat): (w: Write)
    ensures w.Execute?
    ensures DecodeV4Swap(w.call) == Some(SwapRequest(POOL_KEY, ZeroForOne(direction), amountIn, 0))
    ensures w.deadline * 1000 <= nowMs + SwapDeadlineWindow * 1000 < (w.deadline + 1) * 1000
  {
    DecodeEncode(SwapRequest(POOL_KEY, ZeroForOne(direction), amountIn, 0));
    Execute(EncodeV4Swap(POOL_KEY, ZeroForOne(direction), amountIn, 0), Seconds(nowMs) + SwapDeadlineWindow)
  }

  /** Number of swap submissions among the writes. */
  function SwapsIssued(writes: seq<Write>): nat
    decreases |writes|
  {
    if writes == [] then 0
    else SwapsIssued(writes[..|writes| - 1]) + (if writes[|writes| - 1].Execute? then 1 else 0)
  }

  lemma SwapsIssuedAppend(writes: seq<Write>, w: Write)
    ensures SwapsIssued(writes + [w]) == SwapsIssued(writes) + (if w.Execute? then 1 else 0)
  {
  }

  /** `error.message.slice(0, 150)`. */
  function ErrorText(message: string): (text: string)
    ensures |text| == if |message| <= ErrorMessageLimit then |message| else ErrorMessageLimit
    ensures text <= message
    ensures |message| <= ErrorMessageLimit ==> text == message
  {
    if |message| <= ErrorMessageLimit then message else message[..ErrorMessageLimit]
  }

  /** The three ways `handleSwap` can go. */
  datatype Branch = NeedErc20Approval | NeedPermit2Approval | SwapNow

  /** The Permit2 amount, 0 while the read has not resolved. */
  function Permit2Amount(permit2Allowance: Option<Permit2Allowance>): nat
  {
    if permit2Allowance.Some? then permit2Allowance.value.amount else 0
  }

  /** The allowance checks of `handleSwap`, a read that has not resolved counting as 0. */
  function ChooseBranch(erc20Allowance: Option<nat>, permit2Allowance: Option<Permit2Allowance>, amountIn: nat): (b: Branch)
    ensures b == NeedErc20Approval <==> erc20Allowance.GetOr(0) < amountIn
    ensures b == NeedPermit2Approval <==>
              amountIn <= erc20Allowance.GetOr(0) && Permit2Amount(permit2Allowance) < amountIn
    ensures b == SwapNow <==>
              amountIn <= erc20Allowance.GetOr(0) && amountIn <= Permit2Amount(permit2Allowance)
  {
    if erc20Allowance.GetOr(0) < amountIn then NeedErc20Approval
    else if Permit2Amount(permit2Allowance) < amountIn then NeedPermit2Approval
    else SwapNow
  }

  /** A retry whose ERC-20 allowance already covers the amount (as the
      maximum that `Erc20ApprovalWrite` grants does) never asks for it again,
      and when the Permit2 amount covers it too the retry swaps at once. */
  lemma RetrySkipsSatisfiedApprovals(erc20Allowance: nat, amountIn: nat, permit2Allowance: Option<Permit2Allowance>)
    requires amountIn <= erc20Allowance
    ensures ChooseBranch(Some(erc20Allowance), permit2Allowance, amountIn) != NeedErc20Approval
    ensures Permit2Amount(permit2Allowance) >= amountIn ==>
              ChooseBranch(Some(erc20Allowance), permit2Allowance, amountIn) == SwapNow
  {
  }

  class SwapFlowState {
    /** `swapStep` and `errorMessage`. */
    var step: Step
    var errorMessage: string
    /** Callbacks scheduled with `setTimeout` that have not run yet. */
    var timers: seq<Timer>
    /** Every transaction handed to the wallet, oldest first. */
    var writes: seq<Write>

    ghost predicate Valid()
      reads this
    {
      |errorMessage| <= ErrorMessageLimit
    }

    constructor ()
      ensures Valid()
      ensures step == Idle && errorMessage == "" && timers == [] && writes == []
    {
      step := Idle;
      errorMessage := "";
      timers := [];
      writes := [];
    }

    /** `isLoading`: a flow in progress or a transaction still pending. */
    function IsLoading(tx: TxActivity): bool
      reads this
    {
      step == Approving || step == Swapping || tx.Any()
    }

    /** The swap button: `disabled={isLoading || !swapAmount}`. */
    function SwapButtonEnabled(tx: TxActivity, swapAmount: string): bool
      reads this
    {
      !IsLoading(tx) && swapAmount != ""
    }

    /** Whatever the wallet's transaction status and the amount typed, the form
        is loading and the swap button cannot start another flow. */
    ghost predicate FormLocked()
      reads this
    {
      (forall tx: TxActivity :: IsLoading(tx)) &&
      (forall tx: TxActivity, amount: string :: !SwapButtonEnabled(tx, amount))
    }

    /** Once no transaction is pending, any non-empty amount can be swapped. */
    ghost predicate FormUnlocked()
      reads this
    {
      forall amount: string :: amount != "" ==> SwapButtonEnabled(Quiet, amount)
    }

    /** `approvePermit2ForRouter`: grant the router `amountIn` of the input
        token through Permit2 for 30 days; nothing without an account. */
    method ApprovePermit2ForRouter(connected: bool, amountIn: nat, direction: Direction, nowMs: nat)
      requires Valid()
      modifies this
      ensures Valid()
      ensures step == old(step) && errorMessage == old(errorMessage) && timers == old(timers)
      ensures writes == if connected then old(writes) + [Permit2ApprovalWrite(direction, amountIn, nowMs)]
                        else old(writes)
    {
      if !connected {
        return;
      }
      writes := writes + [Permit2ApprovalWrite(direction, amountIn, nowMs)];
    }

    /** `executeSwap`: move to `swapping`, which locks the form, and submit
        the router call. */
    method ExecuteSwap(connected: bool, amountIn: nat, direction: Direction, nowMs: nat)
      requires Valid()
      modifies this
      ensures Valid()
      ensures errorMessage == old(errorMessage) && timers == old(timers)
      ensures connected ==> step == Swapping && writes == old(writes) + [SwapWrite(direction, amountIn, nowMs)]
      ensures connected ==> FormLocked()
      ensures !connected ==> step == old(step) && writes == old(writes)
    {
      if !connected {
        return;
      }
      step := Swapping;
      writes := writes + [SwapWrite(direction, amountIn, nowMs)];
    }

    /** `handleSwap`: clear the message, then ERC-20 approval if its allowance
        is short, else Permit2 approval if that is short, else the swap.
        Exactly one write is issued, a swap only when both suffice, and the
        form is locked afterwards so that no second flow can start. */
    method HandleSwap(connected: bool, amountIn: nat, direction: Direction,
                      erc20Allowance: Option<nat>, permit2Allowance: Option<Permit2Allowance>, nowMs: nat)
      requires Valid()
      modifies this
      ensures Valid()
      ensures !connected ==> unchanged(this)
      ensures connected ==> errorMessage == "" && timers == old(timers) && FormLocked()
      ensures connected && ChooseBranch(erc20Allowance, permit2Allowance, amountIn) == NeedErc20Approval ==>
                step == Approving && writes == old(writes) + [Erc20ApprovalWrite(direction)]
      ensures connected && ChooseBranch(erc20Allowance, permit2Allowance, amountIn) == NeedPermit2Approval ==>
                step == Approving && writes == old(writes) + [Permit2ApprovalWrite(direction, amountIn, nowMs)]
      ensures connected && ChooseBranch(erc20Allowance, permit2Allowance, amountIn) == SwapNow ==>
                step == Swapping && writes == old(writes) + [SwapWrite(direction, amountIn, nowMs)]
      ensures SwapsIssued(writes) ==
                SwapsIssued(old(writes)) +
                (if connected && ChooseBranch(erc20Allowance, permit2Allowance, amountIn) == SwapNow then 1 else 0)
    {
      if !connected {
        return;
      }
      errorMessage := "";
      if erc20Allowance.GetOr(0) < amountIn {
        assert ChooseBranch(erc20Allowance, permit2Allowance, amountIn) == NeedErc20Approval;
        step := Approving;
        SwapsIssuedAppend(writes, Erc20ApprovalWrite(direction));
        writes := writes + [Erc20ApprovalWrite(direction)];
        LockTracksStep(this);
        return;
      }
      if Permit2Amount(permit2Allowance) < amountIn {
        assert ChooseBranch(erc20Allowance, permit2Allowance, amountIn) == NeedPermit2Approval;
        step := Approving;
        SwapsIssuedAppend(writes, Permit2ApprovalWrite(direction, amountIn, nowMs));
        ApprovePermit2ForRouter(connected, amountIn, direction, nowMs);
        LockTracksStep(this);
        return;
      }
      assert ChooseBranch(erc20Allowance, permit2Allowance, amountIn) == SwapNow;
      SwapsIssuedAppend(writes, SwapWrite(direction, amountIn, nowMs));
      ExecuteSwap(connected, amountIn, direction, nowMs);
    }

    /** Receipt of the ERC-20 approval: while approving, schedule the Permit2
        approval (after 1 s) without re-checking any allowance. */
    method Erc20ApproveConfirmed()
      requires Valid()
      modifies this
      ensures Valid()
      ensures step == old(step) && errorMessage == old(errorMessage) && writes == old(writes)
      ensures timers == if old(step) == Approving then old(timers) + [ThenApprovePermit2] else old(timers)
    {
      if step == Approving {
        timers := timers + [ThenApprovePermit2];
      }
    }

    /** Receipt of the Permit2 approval: while approving, schedule the swap (after 1 s). */
    method Permit2ApproveConfirmed()
      requires Valid()
      modifies this
      ensures Valid()
      ensures step == old(step) && errorMessage == old(errorMessage) && writes == old(writes)
      ensures timers == if old(step) == Approving then old(timers) + [ThenExecuteSwap] else old(timers)
    {
      if step == Approving {
        timers := timers + [ThenExecuteSwap];
      }
    }

    /** Receipt of the swap: while swapping, report success, which unlocks the
        form, and schedule the 3 s reset. */
    method SwapConfirmed()
      requires Valid()
      modifies this
      ensures Valid()
      ensures errorMessage == old(errorMessage) && writes == old(writes)
      ensures old(step) == Swapping ==>
                step == Success && timers == old(timers) + [ResetToIdle(SuccessResetMs)] && FormUnlocked()
      ensures old(step) != Swapping ==> step == old(step) && timers == old(timers)
    {
      if step == Swapping {
        step := Success;
        timers := timers + [ResetToIdle(SuccessResetMs)];
      }
    }

    /** The `onError` callback of any of the three writes: report the error
        with the first 150 characters of its message, which unlocks the form,
        and schedule the 5 s reset. */
    method WriteFailed(message: string)
      requires Valid()
      modifies this
      ensures Valid() && FormUnlocked()
      ensures step == Error && errorMessage == ErrorText(message) && writes == old(writes)
      ensures timers == old(timers) + [ResetToIdle(ErrorResetMs)]
    {
      step := Error;
      errorMessage := ErrorText(message);
      timers := timers + [ResetToIdle(ErrorResetMs)];
    }

    /** The scheduled callback `timers[i]` runs. A reset returns to `idle`
        whatever the step is now. A paced call runs the `approvePermit2ForRouter`
        or `executeSwap` closure of the render in which its receipt effect ran:
        the account, amount and direction are the values that render captured,
        and only the clock is read when the callback runs. */
    method TimerElapsed(i: nat, connected: bool, amountIn: nat, direction: Direction, nowMs: nat)
      requires Valid()
      requires i < |timers|
      modifies this
      ensures Valid()
      ensures timers == old(timers[..i] + timers[i + 1..])
      ensures errorMessage == old(errorMessage)
      ensures old(timers[i]).ResetToIdle? ==> step == Idle && writes == old(writes) && FormUnlocked()
      ensures old(timers[i]) == ThenApprovePermit2 ==>
                step == old(step) &&
                writes == if connected then old(writes) + [Permit2ApprovalWrite(direction, amountIn, nowMs)]
                          else old(writes)
      ensures old(timers[i]) == ThenExecuteSwap && connected ==>
                step == Swapping && writes == old(writes) + [SwapWrite(direction, amountIn, nowMs)] && FormLocked()
      ensures old(timers[i]) == ThenExecuteSwap && !connected ==>
                step == old(step) && writes == old(writes)
    {
      var t := timers[i];
      timers := timers[..i] + timers[i + 1..];
      match t
      case ResetToIdle(_) =>
        step := Idle;
      case ThenApprovePermit2 =>
        ApprovePermit2ForRouter(connected, amountIn, direction, nowMs);
      case ThenExecuteSwap =>
        ExecuteSwap(connected, amountIn, direction, nowMs);
    }
  }

  /** The form is locked exactly while a flow is approving or swapping, and
      unlocked in every other step; so only a failure, the swap's receipt or
      a reset timer, the events that leave those two steps, unlock it. */
  lemma LockTracksStep(flow: SwapFlowState)
    ensures flow.FormLocked() <==> flow.step == Approving || flow.step == Swapping
    ensures flow.FormUnlocked() <==> !(flow.step == Approving || flow.step == Swapping)
  {
    if flow.FormLocked() {
      assert flow.IsLoading(Quiet);
    }
    if flow.FormUnlocked() {
      assert flow.SwapButtonEnabled(Quiet, "0");
    }
  }

  /** The end of every successful flow: from `approving` with nothing
      scheduled, the Permit2 receipt leads to exactly one swap submission and,
      on its receipt, to `success`. */
  method Permit2ReceiptToSuccess(flow: SwapFlowState, amountIn: nat, direction: Direction, nowMs: nat)
    requires flow.Valid() && flow.step == Approving && flow.timers == []
    modifies flow
  {
    ghost var before := flow.writes;
    ghost var swap := SwapWrite(direction, amountIn, nowMs);
    flow.Permit2ApproveConfirmed();
    assert flow.step == Approving && flow.timers == [ThenExecuteSwap] && flow.writes == before;
    flow.TimerElapsed(0, true, amountIn, direction, nowMs);
    assert flow.step == Swapping && flow.timers == [] && flow.writes == before + [swap];
    flow.SwapConfirmed();
    assert flow.step == Success && flow.timers == [ResetToIdle(SuccessResetMs)];
    assert flow.writes == before + [swap];
  }

  /** A wallet with no allowances swapping 0.01 WETH: the ERC-20 approval,
      then the Permit2 approval, then (in Permit2ReceiptToSuccess) the swap. */
  method FreshWalletScenario(nowMs: nat)
  {
    var amountIn: nat := 10_000_000_000_000_000;
    ghost var erc20, permit2 := Erc20ApprovalWrite(WethToMolt), Permit2ApprovalWrite(WethToMolt, amountIn, nowMs + 1000);
    var flow := new SwapFlowState();
    flow.HandleSwap(true, amountIn, WethToMolt, Some(0), Some(Permit2Allowance(0, 0, 0)), nowMs);
    assert flow.step == Approving && flow.timers == [] && flow.writes == [erc20];
    flow.Erc20ApproveConfirmed();
    assert flow.step == Approving && flow.timers == [ThenApprovePermit2] && flow.writes == [erc20];
    flow.TimerElapsed(0, true, amountIn, WethToMolt, nowMs + 1000);
    assert flow.step == Approving && flow.timers == [] && flow.writes == [erc20, permit2];
    Permit2ReceiptToSuccess(flow, amountIn, WethToMolt, nowMs + 2000);
  }

  /** ERC-20 allowance already sufficient, no Permit2 allowance yet: the
      Permit2 approval, then (in Permit2ReceiptToSuccess) the swap. */
  method Erc20AlreadyApprovedScenario(nowMs: nat)
  {
    var amountIn: nat := 10_000_000_000_000_000;
    ghost var permit2 := Permit2ApprovalWrite(MoltToWeth, amountIn, nowMs);
    var flow := new SwapFlowState();
    flow.HandleSwap(true, amountIn, MoltToWeth, Some(MaxUint256), None, nowMs);
    assert flow.step == Approving && flow.timers == [] && flow.writes == [permit2];
    Permit2ReceiptToSuccess(flow, amountIn, MoltToWeth, nowMs + 1000);
  }

  /** A rejected approval reports the error and no swap is ever submitted,
      whatever receipts arrive afterwards. */
  method RejectedApprovalScenario(nowMs: nat, message: string)
  {
    var amountIn: nat := 10_000_000_000_000_000;
    ghost var erc20 := Erc20ApprovalWrite(WethToMolt);
    var flow := new SwapFlowState();
    flow.HandleSwap(true, amountIn, WethToMolt, None, None, nowMs);
    assert flow.step == Approving && flow.timers == [] && flow.writes == [erc20];
    flow.WriteFailed(message);
    assert flow.step == Error && flow.errorMessage <= message && flow.writes == [erc20];
    flow.Erc20ApproveConfirmed();
    assert flow.step == Error && flow.timers == [ResetToIdle(ErrorResetMs)];
    flow.Permit2ApproveConfirmed();
    assert flow.step == Error && flow.timers == [ResetToIdle(ErrorResetMs)];
    flow.SwapConfirmed();
    assert flow.timers == [ResetToIdle(ErrorResetMs)] && flow.writes == [erc20];
    SwapsIssuedAppend([], erc20);
    assert SwapsIssued(flow.writes) == 0;
  }

  /** A retry pressed within 5 s of an error: the earlier reset still runs and
      returns the new flow to `idle`, after which the approval's receipt no
      longer advances it. */
  method RetryBeforeResetScenario(nowMs: nat, message: string)
  {
    var amountIn: nat := 10_000_000_000_000_000;
    ghost var erc20 := Erc20ApprovalWrite(WethToMolt);
    var flow := new SwapFlowState();
    flow.HandleSwap(true, amountIn, WethToMolt, Some(0), None, nowMs);
    assert flow.step == Approving && flow.timers == [] && flow.writes == [erc20];
    flow.WriteFailed(message);
    assert flow.step == Error && flow.timers == [ResetToIdle(ErrorResetMs)] && flow.writes == [erc20];
    flow.HandleSwap(true, amountIn, WethToMolt, Some(0), None, nowMs + 2000);
    assert flow.step == Approving && flow.timers == [ResetToIdle(ErrorResetMs)] && flow.writes == [erc20, erc20];
    flow.TimerElapsed(0, true, amountIn, WethToMolt, nowMs + 5000);
    assert flow.step == Idle && flow.timers == [] && flow.writes == [erc20, erc20];
    flow.Erc20ApproveConfirmed();
    assert flow.step == Idle && flow.timers == [] && flow.writes == [erc20, erc20];
  }
}

=== FILE: v4_swap.dfy ===
/** The structure of the Universal Router call that `encodeV4Swap` in
    frontend/app/page.tsx builds: one V4_SWAP command whose single input holds
    the action list SWAP_EXACT_IN_SINGLE, SETTLE_ALL, TAKE_ALL and one parameter
    record per action. The ABI byte encoding of each record is not modelled. */
module V4Swap {
  import opened Wrappers

  newtype byte = x: int | 0 <= x < 256

  /** A contract address, as its hex text. */
  type Address = string

  /** Universal Router command selecting a V4 swap driven by an action list. */
  const V4_SWAP: byte := 0x10

  /** V4 router actions. */
  const SWAP_EXACT_IN_SINGLE: byte := 0x06
  const SETTLE_ALL: byte := 0x0c
  const TAKE_ALL: byte := 0x0f

  /** The action list every swap input carries, in order. */
  const SwapActions: seq<byte> := [SWAP_EXACT_IN_SINGLE, SETTLE_ALL, TAKE_ALL]

  datatype PoolKey = PoolKey(currency0: Address, currency1: Address, fee: nat, tickSpacing: int, hooks: Address)

  /** The pool the page trades in: WETH/MOLT with the dynamic-fee flag as its fee. */
  const WETH: Address := "0x4200000000000000000000000000000000000006"
  const MOLT: Address := "0xB695559b26BB2c9703ef1935c37AeaE9526bab07"
  const ZeroAddress: Address := "0x0000000000000000000000000000000000000000"
  const DYNAMIC_FEE_FLAG: nat := 0x800000
  const POOL_KEY := PoolKey(WETH, MOLT, DYNAMIC_FEE_FLAG, 60, ZeroAddress)

  /** The parameter record of each action. */
  datatype ActionParams =
    | ExactInSingle(poolKey: PoolKey, zeroForOne: bool, amountIn: nat, amountOutMinimum: nat, hookData: seq<byte>)
    | SettleAll(currency: Address, maxAmount: nat)
    | TakeAll(currency: Address, minAmount: nat)

  /** The action byte a parameter record belongs to. */
  function ActionOf(p: ActionParams): (a: byte)
    ensures a in SwapActions
  {
    match p
    case ExactInSingle(_, _, _, _, _) => SWAP_EXACT_IN_SINGLE
    case SettleAll(_, _) => SETTLE_ALL
    case TakeAll(_, _) => TAKE_ALL
  }

  /** One element of `inputs`: the action bytes and one record per action. */
  datatype V4Input = V4Input(actions: seq<byte>, params: seq<ActionParams>)

  /** The `commands` and `inputs` arguments of the router's `execute`. */
  datatype RouterCall = RouterCall(commands: seq<byte>, inputs: seq<V4Input>)

  /** What a swap asks for: the values `encodeV4Swap` is called with. */
  datatype SwapRequest = SwapRequest(poolKey: PoolKey, zeroForOne: bool, amountIn: nat, minAmountOut: nat)

  /** The currency paid in: currency0 when swapping zero for one. */
  function InputCurrency(key: PoolKey, zeroForOne: bool): Address
  {
    if zeroForOne then key.currency0 else key.currency1
  }

  /** The currency received: the other one. */
  function OutputCurrency(key: PoolKey, zeroForOne: bool): Address
  {
    if zeroForOne then key.currency1 else key.currency0
  }

  /** `encodeV4Swap(poolKey, zeroForOne, amountIn, minAmountOut)`. */
  function EncodeV4Swap(key: PoolKey, zeroForOne: bool, amountIn: nat, minAmountOut: nat): (call: RouterCall)
    ensures call.commands == [0x10]
    ensures |call.inputs| == 1
    ensures call.inputs[0].actions == [0x06, 0x0c, 0x0f]
    ensures |call.inputs[0].params| == |call.inputs[0].actions|
    ensures forall i :: 0 <= i < |call.inputs[0].params| ==>
              ActionOf(call.inputs[0].params[i]) == call.inputs[0].actions[i]
    ensures call.inputs[0].params[0].ExactInSingle? && call.inputs[0].params[1].SettleAll?
            && call.inputs[0].params[2].TakeAll?
    ensures call.inputs[0].params[0].poolKey == key && call.inputs[0].params[0].zeroForOne == zeroForOne
    ensures call.inputs[0].params[1].currency == key.currency0 <==> zeroForOne || key.currency0 == key.currency1
    ensures {call.inputs[0].params[1].currency, call.inputs[0].params[2].currency} == {key.currency0, key.currency1}
    ensures call.inputs[0].params[1].maxAmount == call.inputs[0].params[0].amountIn == amountIn
    ensures call.inputs[0].params[2].minAmount == call.inputs[0].params[0].amountOutMinimum == minAmountOut
  {
    var swap := ExactInSingle(key, zeroForOne, amountIn, minAmountOut, []);
    var settle := SettleAll(InputCurrency(key, zeroForOne), amountIn);
    var take := TakeAll(OutputCurrency(key, zeroForOne), minAmountOut);
    RouterCall([V4_SWAP], [V4Input(SwapActions, [swap, settle, take])])
  }

  /** The inverse of `encodeV4Swap`'s layout (not the router's own parser,
      which checks far less): it recognises exactly the calls of that shape,
      one V4_SWAP command, the three actions in order, an empty hook payload,
      settle in the input currency for the input amount, take the output
      currency for the minimum output, and recovers the request. */
  function DecodeV4Swap(call: RouterCall): (r: Option<SwapRequest>)
    ensures r.Some? ==> call.commands == [V4_SWAP] && |call.inputs| == 1
  {
    if call.commands != [V4_SWAP] || |call.inputs| != 1 then None
    else
      var input := call.inputs[0];
      if input.actions != SwapActions || |input.params| != 3 then None
      else
        var swap, settle, take := input.params[0], input.params[1], input.params[2];
        if !swap.ExactInSingle? || !settle.SettleAll? || !take.TakeAll? || swap.hookData != [] then None
        else if settle.currency != InputCurrency(swap.poolKey, swap.zeroForOne)
             || settle.maxAmount != swap.amountIn
             || take.currency != OutputCurrency(swap.poolKey, swap.zeroForOne)
             || take.minAmount != swap.amountOutMinimum then None
        else Some(SwapRequest(swap.poolKey, swap.zeroForOne, swap.amountIn, swap.amountOutMinimum))
  }

  /** Encoding loses nothing: the layout gives back exactly the request. */
  lemma DecodeEncode(req: SwapRequest)
    ensures DecodeV4Swap(EncodeV4Swap(req.poolKey, req.zeroForOne, req.amountIn, req.minAmountOut)) == Some(req)
  {
  }

  /** Every call of that layout is the encoding of the request it carries. */
  lemma EncodeDecode(call: RouterCall)
    requires DecodeV4Swap(call).Some?
    ensures var req := DecodeV4Swap(call).value;
            EncodeV4Swap(req.poolKey, req.zeroForOne, req.amountIn, req.minAmountOut) == call
  {
    var input := call.inputs[0];
    assert input.params == [input.params[0], input.params[1], input.params[2]];
    assert call.inputs == [input];
  }

  /** Hence different requests never produce the same call. */
  lemma EncodeInjective(a: SwapRequest, b: SwapRequest)
    requires EncodeV4Swap(a.poolKey, a.zeroForOne, a.amountIn, a.minAmountOut)
          == EncodeV4Swap(b.poolKey, b.zeroForOne, b.amountIn, b.minAmountOut)
    ensures a == b
  {
  }
}

=== FILE: wrappers.dfy ===
/** Optional values: a read that has not resolved yet (`undefined` in the page),
    or a number that did not parse. */
module Wrappers {

  datatype Option<+T> = None | Some(value: T) {

    /** The wrapped value, or `default` when there is none (the `??` and `||` fallbacks). */
    function GetOr(default: T): (r: T)
      ensures Some? ==> r == value
      ensures None? ==> r == default
    {
      match this
      case Some(v) => v
      case None => default
    }
  }
}
